=== FILE: README.md ===
# Activity lifecycle and command envelope

A Dafny model of the activity-scheduling and command-dispatch core of a
chat-bot game (`src/lib/settings/settings.ts`). Two parts:

1. **Activity cache, store and busy set.** The store is the activity table,
   modelled as the sequence of its rows. The cache (`minionActivityCache`)
   maps each participant of a running activity to the flattened record. The
   busy set (`oneCommandAtATimeCache`) marks users whose activity is being
   completed. `getActivityOfUser` is a query on `ActivityCache.Cache`;
   `minionActivityCacheDelete` and `activitySync` are pure functions from
   one cache to the next; `syncActivityCache`, `cancelTask` and
   `completeActivity` are pure transitions over `Lifecycle.State`. The invariant
   `Lifecycle.Consistent` ties cache to store: the cache keys are exactly the
   participants of incomplete rows, and each key holds the flattened form of
   an incomplete row that names it.
2. **The `runCommand` envelope.** This is a pure function. Its inputs are
   what the two command tables hold under the name, the argument shape, and
   how `preCommand`, the command bodies, the channel and `postCommand`
   behave. Its output is the trace of sends, command-error emissions and
   post-hook calls, plus the returned value. The only other outcome is the
   "No command found" error, which escapes before any hook runs.

Files: `wrappers.dfy` (Option), `activity.dfy` (records, participants,
flattening), `activity_cache.dfy` (cache operations), `activity_store.dfy`
(store queries), `lifecycle.dfy` (state transitions and the consistency
invariant), `command_envelope.dfy` (`runCommand`).

Collaborators the core calls but does not define are inputs:
- A task handler is a function from the flattened activity and the state
  it runs in to the store it leaves and the error it threw.
- `taskNameFromType` and the task table are `Lifecycle.TaskRegistry`.
- `preCommand`, the command bodies and `postCommand` are described by their
  outcome on the invocation.
- `isGroupActivity` means "the payload lists `users`".
- `convertStoredActivityToFlatActivity` (in `prisma.ts`, which is not part
  of this model) is `Activities.Flatten`, a concrete projection: it keeps
  the id, primary user, type and payload, and drops `completed`. The model
  assumes the conversion carries the payload's `users` over unchanged; every
  cache contract rests on that.

The model follows the code. Behaviours a reader might not expect are each
proved as a lemma:
- `cancelTask` drops only the caller's cache key. Group co-members stay
  cached and point at a deleted row (`Lifecycle.CancelStrandsGroupMembers`).
- The busy mark is added without checking it first. A second completion for
  a busy user still runs its handler (`Lifecycle.CompleteIgnoresBusyMark`).
- `completeActivity` checks only the `completed` flag of the record it is
  given, and never sets the flag itself. Handing it the same incomplete
  record twice runs the handler twice
  (`Lifecycle.CompleteTwiceRunsHandlerTwice`).
- A legacy command's own throw is caught by an inner `catch` and emitted as
  a command error. It never reaches the post hook's `error`
  (`CommandEnvelope.LegacyTrace`).
- A thrown string reaches the channel only when the channel is sendable.
  Otherwise it becomes the post hook's `error` (`CommandEnvelope.MahojiTrace`,
  `CommandEnvelope.PreCommandThrowTrace`).
- Completion evicts through the primary user's current cache entry, not
  through the completed record. It evicts all of the record's participants
  when the record is incomplete and in the store, its task type is
  registered, every user is on at most one incomplete row, the cache is
  consistent with the store, and the primary user is among the participants
  (`Lifecycle.CompleteEvictsAllParticipants`). What eviction really needs is
  only an incomplete record with a registered task whose primary user's
  cache entry is its own flattened form; the store need not agree
  (`Lifecycle.CompleteEvictsThroughOwnEntry`).

## Model

| member | source | states |
|---|---|---|
| ActivityCache.GetActivityOfUser | src/lib/settings/settings.ts:76-79 | the result is the entry cached for the user when there is one and nothing otherwise; as a function of the cache it cannot change it |
| ActivityCache.RemoveEach | src/lib/settings/settings.ts:86-88 | deleting a list of users leaves exactly the old keys minus the listed users, every remaining key with its old entry |
| ActivityCache.CacheDelete | src/lib/settings/settings.ts:81-89 | no change when the user has no entry; otherwise exactly the participants named by that entry (group `users`, or the entry's own user) are evicted and every other key keeps its entry |
| ActivityCache.SyncThenDeleteEvictsGroup | src/lib/settings/settings.ts:81-89 | caching an activity and then evicting through any one of its participants removes every participant and gives every other key back its earlier entry |
| ActivityCache.SetEach | src/lib/settings/settings.ts:270-272 | after setting each listed user, the keys are the old keys plus the listed users; listed users map to the new record and the others keep their entries |
| ActivityCache.ActivitySync | src/lib/settings/settings.ts:266-273 | every participant of the activity (group list or primary user) now maps to its flattened record; the other keys keep their entries; completion is not checked |
| ActivityCache.SyncEach | src/lib/settings/settings.ts:100-102 | syncing tasks in order adds exactly their participants; untouched keys keep their entries; each participant maps to the last task that names it |
| Activities.Flatten | src/lib/settings/settings.ts:276 | the flattened record keeps the id, primary user, type and participant list of the stored record |
| ActivityStore.Incomplete | src/lib/settings/settings.ts:97 | the query returns exactly the incomplete rows |
| ActivityStore.IncompleteKeepsOrder | src/lib/settings/settings.ts:97-102 | the incomplete rows come back in their relative store order, the order the rebuild loop replays them in, each as many times as it occurs in the store |
| ActivityStore.DeleteIncompleteOf | src/lib/settings/settings.ts:92 | exactly the incomplete rows whose primary user is the given user are deleted, the surviving rows keep their relative order and their number of copies, completed rows are kept, and with no such row the store is unchanged |
| Lifecycle.SyncActivityCache | src/lib/settings/settings.ts:96-103 | after the rebuild the cache is consistent with the store: its keys are exactly the participants of incomplete rows, and nothing held before survives unless the store still names it; when each user is on at most one incomplete row, every participant maps to that row's flattened record; store and busy set are untouched |
| Lifecycle.SyncEstablishesConsistent | src/lib/settings/settings.ts:96-103 | syncing the incomplete rows into the cleared cache gives a cache consistent with the store, each participant mapped to its own row when rows do not share participants |
| Lifecycle.GetActivityAfterSync | src/lib/settings/settings.ts:76-79 | after the rebuild, looking up a user on an incomplete row gives that row's flattened record (when every user is on at most one incomplete row), and looking up a user on no incomplete row gives nothing |
| Lifecycle.SyncIdempotent | src/lib/settings/settings.ts:96-103 | rebuilding twice gives the same state as rebuilding once |
| Lifecycle.ActivitySyncPreservesConsistent | src/lib/settings/settings.ts:266-273 | syncing a new incomplete row whose participants are all free keeps the cache consistent with the store that now holds it, and keeps every user on at most one incomplete row |
| Lifecycle.CancelTask | src/lib/settings/settings.ts:91-94 | every incomplete row of the user is deleted and every other row kept; only the user's own cache key is dropped; the busy set is untouched; with no row and no key nothing changes |
| Lifecycle.CancelSoloPreservesConsistent | src/lib/settings/settings.ts:91-94 | a user whose only incomplete rows are their own solo rows can cancel without breaking cache/store consistency |
| Lifecycle.CancelStrandsGroupMembers | src/lib/settings/settings.ts:93 | cancelling a group activity from its leader deletes the row but leaves each other member cached with its old entry, so the cache is no longer consistent with the store |
| Lifecycle.CompleteActivity | src/lib/settings/settings.ts:275-298 | a completed record throws "Tried to complete an already completed task.", and an unregistered task throws "Missing task"; in both cases the state is unchanged and no handler runs. Otherwise nothing is thrown. The handler runs with the primary user marked busy. Afterwards the user is no longer busy, the user's cache entry is evicted for all its participants, the store is what the handler left, and a handler error is logged |
| Lifecycle.CompleteEvictsAllParticipants | src/lib/settings/settings.ts:288-297 | when the record is incomplete and in the store, its task type is registered, every user is on at most one incomplete row and the cache is consistent with the store, completing an incomplete row whose primary user is a participant evicts every participant and frees the primary user, whether or not the handler threw |
| Lifecycle.CompleteEvictsThroughOwnEntry | src/lib/settings/settings.ts:277-297 | for any store, completing an incomplete record with a registered task whose primary user is cached on that record's flattened form evicts every participant of the record and frees the primary user |
| Lifecycle.CompleteIgnoresBusyMark | src/lib/settings/settings.ts:288 | a user already marked busy still has the handler run, and ends unmarked |
| Lifecycle.CompleteTwiceRunsHandlerTwice | src/lib/settings/settings.ts:277-279 | completion re-checks only the record it is given, so the same incomplete record completed twice runs the handler twice |
| CommandEnvelope.Resolve | src/lib/settings/settings.ts:149-152 | a mahoji command wins when both kinds exist; the legacy command is chosen exactly when it is the only kind that exists; the name is unresolved exactly when neither exists |
| CommandEnvelope.TryBlock | src/lib/settings/settings.ts:160-206 | the try block makes no post-hook call and is inhibited exactly when `preCommand` gave a reason |
| CommandEnvelope.CatchBlock | src/lib/settings/settings.ts:207-213 | after the catch block nothing is left raised and no post-hook call has been made |
| CommandEnvelope.PostHook | src/lib/settings/settings.ts:214-230 | the finally block is one post-hook call carrying the error, the inhibited flag, `isContinue` and the args, followed by a logged failure exactly when the post hook throws |
| CommandEnvelope.PostHookAppended | src/lib/settings/settings.ts:214-230 | the finally block adds exactly one post-hook call, last except for the log of its own failure, carrying the error, the inhibited flag, `isContinue` and the args |
| CommandEnvelope.RunCommand | src/lib/settings/settings.ts:132-233 | "No command found" escapes exactly when neither kind of command exists. Otherwise the run ends normally, with exactly one post-hook call, last. That call has `inhibited` true exactly when `preCommand` gave a reason. A post-hook failure shows as a logged event |
| CommandEnvelope.MahojiWins | src/lib/settings/settings.ts:149-151 | when a mahoji command exists, any legacy command of the same name makes no difference |
| CommandEnvelope.InhibitedNeverExecutes | src/lib/settings/settings.ts:169-173 | an inhibited run's outcome does not depend on how either command body would behave |
| CommandEnvelope.PostHookFailureIsolated | src/lib/settings/settings.ts:214-230 | a failing post hook changes nothing but adding its log entry: same events before it, same returned value, no error escapes |
| CommandEnvelope.InhibitedTrace | src/lib/settings/settings.ts:161-173 | a silent reason sends nothing and returns undefined; another reason is sent verbatim and returned; the post hook sees `inhibited` and no error |
| CommandEnvelope.PreCommandThrowTrace | src/lib/settings/settings.ts:158-213 | a throw from `preCommand` is sent when it is a string and the channel is sendable; otherwise it becomes the post hook's error |
| CommandEnvelope.MalformedInvocationTrace | src/lib/settings/settings.ts:175-197 | array args to a mahoji command, object args to a legacy command, and a disabled legacy command each hand their exact error message to the post hook, send nothing and return null |
| CommandEnvelope.MahojiTrace | src/lib/settings/settings.ts:175-213 | a mahoji reply is sent when the channel is sendable; a thrown string is sent and leaves the post hook's error empty; any other throw, or a string with no sendable channel, becomes the post hook's error and is not rethrown |
| CommandEnvelope.LegacyTrace | src/lib/settings/settings.ts:194-205 | an enabled legacy command's result is returned; its throw is emitted as a command error and the post hook's error stays empty |

## Left out

- `getUserSettings`, `getNewUser`, `syncNewUserUsername`, `getBuyLimitBank`, `addToBuyLimitBank` and `isElligibleForPresent`: thin database wrappers, one with a random roll and one with raw SQL, outside the activity lifecycle.
- `runMahojiCommand` (building the run context) and the rendering of a mahoji reply into embeds, components and attachments: platform plumbing. A send is an event carrying the reply text. The "No mahoji command found" throw inside it cannot fire here, because it repeats the lookup `runCommand` already made.
- The `method` and `bypassInhibitors` parameters of `runCommand`: they only reach the command body and `preCommand`, whose outcomes are inputs.
- The check at `settings.ts:196` (legacy piece not found): the legacy branch is reached only when the legacy command exists, so it never fires.
- A `channel.send` that rejects: sends are assumed to be delivered.
- The `debug` emit and the `logError` calls: logging. A handler error appears as `loggedError`, a post-hook failure as an event.
- Async interleaving: each operation is one atomic step over the state, and the busy set is a plain set.
- `BigInt(userID)` failing on a malformed id in `cancelTask`: ids are numbers in this model.
- Keeping the cache on the global object across reloads (`settings.ts:72-74`): process bootstrapping.
- `isGroupActivity` and `taskNameFromType` are not part of this model. They are a payload field (`users` present) and an input function, respectively. `convertStoredActivityToFlatActivity` is not part of this model either; `Activities.Flatten` stands in for it as described above.
- Lifecycle.CompleteActivity: the handler may change only the store. A handler that also edits the cache or the busy set (for example by starting the next trip) is not modelled, because its code is not part of this model.
- `src/mahoji/commands/minion.ts`, `src/mahoji/commands/data.ts`, `src/lib/badges.ts`: an option schema with dispatch to helpers outside this model, an autocomplete filter, and a display cache. None of them touches the lifecycle.

=== FILE: activity.dfy ===
/** Activity records as the store keeps them and as the cache holds them.
    A stored record carries the primary participant `userId` and an opaque
    JSON payload; a group activity is one whose payload lists its `users`. */
module Activities {
  import opened Wrappers

  /** A participant identity (a platform snowflake; the TypeScript code
      converts between its string and bigint spellings, which this model does not). */
  type UserId = nat

  /** The record's JSON payload: the optional participant list that makes it
      a group activity, and everything else, which the core never inspects. */
  datatype ActivityData = ActivityData(users: Option<seq<UserId>>, rest: string)

  /** One row of the activity table. */
  datatype StoredActivity = StoredActivity(
    id: nat,
    userId: UserId,
    activityType: string,
    completed: bool,
    data: ActivityData)

  /** The flattened form the cache and the task handlers see: the payload
      spread next to the record's own fields; `completed` is not carried. */
  datatype FlatActivity = FlatActivity(
    id: nat,
    userId: UserId,
    activityType: string,
    users: Option<seq<UserId>>,
    rest: string)

  /** A group activity's listed users, otherwise the primary participant alone. */
  function Participants(a: StoredActivity): seq<UserId>
  {
    match a.data.users
    case Some(us) => us
    case None => [a.userId]
  }

  /** The same choice made on a flattened record. */
  function FlatParticipants(f: FlatActivity): seq<UserId>
  {
    match f.users
    case Some(us) => us
    case None => [f.userId]
  }

  /** Flattening keeps the identity, type and participants of the record. */
  function Flatten(a: StoredActivity): (f: FlatActivity)
    ensures f.id == a.id && f.userId == a.userId && f.activityType == a.activityType
    ensures FlatParticipants(f) == Participants(a)
  {
    FlatActivity(a.id, a.userId, a.activityType, a.data.users, a.data.rest)
  }

  /** The elements of a sequence, as a set. */
  function Elems<T>(s: seq<T>): set<T> {
    set x | x in s
  }
}

=== FILE: activity_cache.dfy ===
/** The in-memory activity cache (`minionActivityCache`): a map from each
    participant of a running activity to that activity's flattened record. */
module ActivityCache {
  import opened Wrappers
  import opened Activities

  type Cache = map<UserId, FlatActivity>

  /** `getActivityOfUser`: the cached entry for `u`, or nothing. Being a
      function of the cache, it cannot change it. */
  function GetActivityOfUser(cache: Cache, u: UserId): (r: Option<FlatActivity>)
    ensures r.Some? <==> u in cache
    ensures r.Some? ==> r.value == cache[u]
  {
    if u in cache then Some(cache[u]) else None
  }

  /** The loop of `activitySync`: map every listed user to `f`. */
  function SetEach(cache: Cache, users: seq<UserId>, f: FlatActivity): (r: Cache)
    ensures r.Keys == cache.Keys + Elems(users)
    ensures forall u :: u in r ==> r[u] == (if u in users then f else cache[u])
    decreases |users|
  {
    if |users| == 0 then cache
    else
      var r := SetEach(cache[users[0] := f], users[1..], f);
      assert forall u :: u in users <==> u == users[0] || u in users[1..];
      r
  }

  /** `activitySync`: every participant of `a` now maps to its flattened
      record; every other key keeps its entry. Completion is not checked. */
  function ActivitySync(cache: Cache, a: StoredActivity): (r: Cache)
    ensures r.Keys == cache.Keys + Elems(Participants(a))
    ensures forall u :: u in r && u in Participants(a) ==> r[u] == Flatten(a)
    ensures forall u :: u in cache && u !in Participants(a) ==> r[u] == cache[u]
  {
    SetEach(cache, Participants(a), Flatten(a))
  }

  /** The loop of `minionActivityCacheDelete`: delete every listed user. */
  function RemoveEach(cache: Cache, users: seq<UserId>): (r: Cache)
    ensures r.Keys == cache.Keys - Elems(users)
    ensures forall u :: u in r ==> r[u] == cache[u]
    decreases |users|
  {
    if |users| == 0 then cache
    else
      var r := RemoveEach(cache - {users[0]}, users[1..]);
      assert forall u :: u in users <==> u == users[0] || u in users[1..];
      r
  }

  /** `minionActivityCacheDelete`: nothing happens when `u` has no entry;
      otherwise exactly the participants named by `u`'s entry are evicted
      (the group's `users`, or the entry's own `userId`) and every other key
      keeps its entry. */
  function CacheDelete(cache: Cache, u: UserId): (r: Cache)
    ensures u !in cache ==> r == cache
    ensures u in cache ==> r.Keys == cache.Keys - Elems(FlatParticipants(cache[u]))
    ensures forall k :: k in r ==> r[k] == cache[k]
  {
    if u !in cache then cache
    else RemoveEach(cache, FlatParticipants(cache[u]))
  }

  /** Caching an activity and then evicting through any one of its
      participants removes every participant and restores every other key:
      a group is evicted together. */
  lemma SyncThenDeleteEvictsGroup(cache: Cache, a: StoredActivity, u: UserId)
    requires u in Participants(a)
    ensures CacheDelete(ActivitySync(cache, a), u).Keys == cache.Keys - Elems(Participants(a))
    ensures forall k :: k in CacheDelete(ActivitySync(cache, a), u) ==>
              CacheDelete(ActivitySync(cache, a), u)[k] == cache[k]
  {
  }

  /** Every user named by some task's participant list. */
  ghost function AllParticipants(tasks: seq<StoredActivity>): set<UserId> {
    set a, u | a in tasks && u in Participants(a) :: u
  }

  /** The loop of `syncActivityCache`: `activitySync` applied to each task in
      order, so a user named by several tasks ends on the last of them. */
  function SyncEach(cache: Cache, tasks: seq<StoredActivity>): (r: Cache)
    ensures SyncedFrom(cache, tasks, r)
    decreases |tasks|
  {
    if |tasks| == 0 then cache
    else
      var n := |tasks| - 1;
      var before := SyncEach(cache, tasks[..n]);
      var r := ActivitySync(before, tasks[n]);
      SyncEachStep(cache, tasks, before, r);
      r
  }

  /** What syncing `tasks` into `cache` leaves behind: the old keys plus every
      participant; untouched keys keep their entries; a participant maps to
      the last task that names it. */
  ghost predicate SyncedFrom(cache: Cache, tasks: seq<StoredActivity>, r: Cache) {
    && r.Keys == cache.Keys + AllParticipants(tasks)
    && (forall u :: u in r && u !in AllParticipants(tasks) ==> r[u] == cache[u])
    && (forall i, u :: 0 <= i < |tasks| && u in Participants(tasks[i]) && LastNaming(tasks, i, u)
          ==> u in r && r[u] == Flatten(tasks[i]))
  }

  /** No task after position `i` names `u`. */
  ghost predicate LastNaming(tasks: seq<StoredActivity>, i: nat, u: UserId) {
    forall j :: i < j < |tasks| ==> u !in Participants(tasks[j])
  }

  /** One more task synced onto a prefix keeps `SyncedFrom`. */
  lemma SyncEachStep(cache: Cache, tasks: seq<StoredActivity>, before: Cache, r: Cache)
    requires |tasks| > 0
    requires SyncedFrom(cache, tasks[..|tasks| - 1], before)
    requires r == ActivitySync(before, tasks[|tasks| - 1])
    ensures SyncedFrom(cache, tasks, r)
  {
    var n := |tasks| - 1;
    var prefix, last := tasks[..n], tasks[n];
    assert tasks == prefix + [last];
    AllParticipantsSnoc(prefix, last);
    assert r.Keys == before.Keys + Elems(Participants(last));
    forall u | u in r && u !in AllParticipants(tasks) ensures r[u] == cache[u] {
      assert u !in Elems(Participants(last));
      assert r[u] == before[u];
    }
    SyncEachLastWriter(tasks, before, r);
  }

  /** The last task naming a user is the one the user ends on. */
  lemma SyncEachLastWriter(tasks: seq<StoredActivity>, before: Cache, r: Cache)
    requires |tasks| > 0
    requires forall i, u :: 0 <= i < |tasks| - 1 && u in Participants(tasks[i])
               && LastNaming(tasks[..|tasks| - 1], i, u)
               ==> u in before && before[u] == Flatten(tasks[i])
    requires r == ActivitySync(before, tasks[|tasks| - 1])
    ensures forall i, u :: 0 <= i < |tasks| && u in Participants(tasks[i]) && LastNaming(tasks, i, u)
              ==> u in r && r[u] == Flatten(tasks[i])
  {
  }

  /** Participants of a task list grown by one task. */
  lemma AllParticipantsSnoc(prefix: seq<StoredActivity>, last: StoredActivity)
    ensures AllParticipants(prefix + [last]) == AllParticipants(prefix) + Elems(Participants(last))
  {
  }
}

=== FILE: activity_store.dfy ===
/** The activity table, abstracted to the rows it holds in query order, and
    the two queries the core issues against it. */
module ActivityStore {
  import opened Activities

  type Store = seq<StoredActivity>

  /** `findMany({ where: { completed: false } })`: the incomplete rows. The
      query names no order; the model returns them in store order, and the
      rebuild's last-writer rule is stated against whatever order this is. */
  function Incomplete(store: Store): (r: Store)
    ensures forall a :: a in r <==> a in store && !a.completed
    ensures |r| <= |store|
  {
    if |store| == 0 then []
    else
      var rest := Incomplete(store[1..]);
      assert forall a :: a in store <==> a == store[0] || a in store[1..];
      if store[0].completed then rest else [store[0]] + rest
  }

  /** `r` keeps some of the rows of `s`, each in its original relative
      order: a row that comes before another in `r` came before it in `s`. */
  ghost predicate SubsequenceOf(r: Store, s: Store)
    decreases |s|
  {
    |r| <= |s| &&
    (|r| == 0 || (r[0] == s[0] && SubsequenceOf(r[1..], s[1..])) || SubsequenceOf(r, s[1..]))
  }

  /** The incomplete rows come back in their relative store order, which is
      the order the rebuild replays them in, and each as often as it occurs
      in the store. */
  lemma {:induction false} IncompleteKeepsOrder(store: Store)
    ensures SubsequenceOf(Incomplete(store), store)
    ensures forall a :: a in Incomplete(store) ==> multiset(Incomplete(store))[a] == multiset(store)[a]
  {
    if |store| > 0 {
      var head, tail := store[0], store[1..];
      IncompleteKeepsOrder(tail);
      assert store == [head] + tail;
      forall a | a in Incomplete(store)
        ensures multiset(Incomplete(store))[a] == multiset(store)[a]
      {
        if a !in Incomplete(tail) {
          // `a` is the head and occurs nowhere in the tail.
          assert a == head && a !in tail;
        }
      }
    }
  }

  /** Whether a row is one `cancelTask(u)` deletes. */
  function CancelledBy(a: StoredActivity, u: UserId): (r: bool)
    ensures a.completed ==> !r
    ensures a.userId != u ==> !r
  {
    a.userId == u && !a.completed
  }

  /** `deleteMany({ where: { user_id: u, completed: false } })`: every
      incomplete row whose primary participant is `u` goes; every other row
      stays, in order; with no such row the store is unchanged. */
  function DeleteIncompleteOf(store: Store, u: UserId): (r: Store)
    ensures forall a :: a in r <==> a in store && !CancelledBy(a, u)
    ensures (forall a :: a in store ==> !CancelledBy(a, u)) ==> r == store
    ensures SubsequenceOf(r, store)
    ensures forall a :: a in r ==> multiset(r)[a] == multiset(store)[a]
    ensures |r| <= |store|
  {
    if |store| == 0 then []
    else
      var rest := DeleteIncompleteOf(store[1..], u);
      assert forall a :: a in store <==> a == store[0] || a in store[1..];
      assert store == [store[0]] + store[1..];
      if CancelledBy(store[0], u) then rest else [store[0]] + rest
  }

  /** Every participant of an incomplete row. */
  ghost function IncompleteParticipants(store: Store): set<UserId> {
    set a, u | a in store && !a.completed && u in Participants(a) :: u
  }

  /** No participant is named by two different incomplete rows. */
  ghost predicate AtMostOneIncomplete(store: Store) {
    forall a, b, u ::
      (a in store && b in store && !a.completed && !b.completed
       && u in Participants(a) && u in Participants(b)) ==> a == b
  }
}

=== FILE: command_envelope.dfy ===
/** `runCommand`: resolve a command by name, run the pre-command inhibitors,
    execute the command, and run the post-command hook on every path once a
    command is resolved. Every collaborator (the command tables, `preCommand`,
    the command bodies, the channel, `postCommand`) is an input describing
    how it behaves on this invocation; the result is the trace of what the
    envelope did. */
module CommandEnvelope {
  import opened Wrappers

  /** Positional arguments (legacy commands) or named options (mahoji commands). */
  datatype Args = ArrayArgs(items: seq<string>) | ObjectArgs(options: map<string, string>)

  datatype Invocation = Invocation(commandName: string, args: Args, isContinue: bool)

  /** A legacy command piece as found by name (possibly through an alias). */
  datatype LegacyCommand = LegacyCommand(name: string, enabled: bool)

  /** What the two command tables hold under the invoked name. */
  datatype Commands = Commands(mahojiExists: bool, legacy: Option<LegacyCommand>)

  /** Something thrown: a bare string (a user-facing message) or an `Error`. */
  datatype Thrown = ThrownString(text: string) | ThrownError(message: string)

  /** The reason `preCommand` returns when it blocks the command. */
  datatype Inhibition = Inhibition(silent: bool, reason: string)

  /** How `preCommand` ends: no reason, a reason, or a throw. */
  datatype PreCheck = Pass | Inhibit(inhibition: Inhibition) | PreThrew(thrown: Thrown)

  /** How a command body ends: with a reply, or a throw. */
  datatype Execution = Returned(reply: string) | Threw(thrown: Thrown)

  /** How the collaborators inside the `try` block behave on this invocation:
      the inhibitors, each command body, and whether the channel is sendable. */
  datatype Behaviour = Behaviour(
    preCommand: PreCheck,
    mahojiRun: Execution,
    legacyRun: Execution,
    channelSendable: bool)

  /** What the envelope does that can be observed. */
  datatype Event =
    | Sent(text: string)
    | CommandErrorEmitted(thrown: Thrown)
    | PostCommand(error: Option<Thrown>, inhibited: bool, isContinue: bool, args: Args)
    | PostCommandFailureLogged

  /** The value `runCommand` resolves to. */
  datatype ReturnValue = Undefined | Null | SentMessage(text: string) | CommandResult(value: string)

  /** Either an error escapes before any hook runs, or the run ends normally. */
  datatype RunResult = Propagated(error: Thrown) | Ran(events: seq<Event>, returned: ReturnValue)

  const NoCommandFoundMessage: string := "No command found"
  const ObjectArgsMessage: string := "Had object args for non-mahoji command"

  function ArrayArgsMessage(commandName: string): string {
    "Had array of args for mahoji command called " + commandName
  }

  function DisabledMessage(commandName: string): string {
    "The " + commandName + " command is disabled."
  }

  /** Which representation a name resolves to: mahoji first, then legacy. */
  datatype Resolution = Mahoji | Legacy(command: LegacyCommand) | Unresolved

  function Resolve(commands: Commands): (r: Resolution)
    ensures commands.mahojiExists ==> r == Mahoji
    ensures r.Unresolved? <==> !commands.mahojiExists && commands.legacy.None?
    ensures r.Legacy? <==> !commands.mahojiExists && commands.legacy.Some?
    ensures r.Legacy? ==> commands.legacy == Some(r.command)
  {
    if commands.mahojiExists then Mahoji
    else match commands.legacy
      case Some(command) => Legacy(command)
      case None => Unresolved
  }

  /** How the `try` block ended. */
  datatype Exit = ReturnWith(value: ReturnValue) | FallThrough | Raise(thrown: Thrown)

  /** The events of the `try` block, how it ended, and whether it was inhibited. */
  datatype Attempt = Attempt(events: seq<Event>, exit: Exit, inhibited: bool)

  /** The `try` block: inhibitors, then the body of the resolved command. */
  function TryBlock(inv: Invocation, resolved: Resolution, b: Behaviour): (a: Attempt)
    requires !resolved.Unresolved?
    ensures NoPostHook(a.events)
    ensures a.inhibited <==> b.preCommand.Inhibit?
  {
    match b.preCommand
    case PreThrew(t) => Attempt([], Raise(t), false)
    case Inhibit(i) =>
      if i.silent then Attempt([], ReturnWith(Undefined), true)
      else Attempt([Sent(i.reason)], ReturnWith(SentMessage(i.reason)), true)
    case Pass =>
      match resolved
      case Mahoji =>
        if inv.args.ArrayArgs? then Attempt([], Raise(ThrownError(ArrayArgsMessage(inv.commandName))), false)
        else
          (match b.mahojiRun
           case Returned(reply) =>
             Attempt(if b.channelSendable then [Sent(reply)] else [], FallThrough, false)
           case Threw(t) => Attempt([], Raise(t), false))
      case Legacy(command) =>
        if !inv.args.ArrayArgs? then Attempt([], Raise(ThrownError(ObjectArgsMessage)), false)
        else if !command.enabled then Attempt([], Raise(ThrownError(DisabledMessage(command.name))), false)
        else
          match b.legacyRun
          case Returned(value) => Attempt([], ReturnWith(CommandResult(value)), false)
          case Threw(t) => Attempt([CommandErrorEmitted(t)], FallThrough, false)
  }

  /** The `catch` block: a thrown string goes to a sendable channel and ends
      the run; anything else becomes the error handed to the post hook. */
  function CatchBlock(a: Attempt, b: Behaviour): (r: (Attempt, Option<Thrown>))
    requires NoPostHook(a.events)
    ensures NoPostHook(r.0.events) && r.0.inhibited == a.inhibited && !r.0.exit.Raise?
  {
    match a.exit
    case Raise(t) =>
      if t.ThrownString? && b.channelSendable then
        (Attempt(a.events + [Sent(t.text)], ReturnWith(SentMessage(t.text)), a.inhibited), None)
      else (Attempt(a.events, FallThrough, a.inhibited), Some(t))
    case _ => (a, None)
  }

  /** The `finally` block: call the post hook; log its failure, if any. */
  function PostHook(error: Option<Thrown>, inhibited: bool, inv: Invocation, postFails: bool): (r: seq<Event>)
    ensures |r| == if postFails then 2 else 1
    ensures r[0] == PostCommand(error, inhibited, inv.isContinue, inv.args)
    ensures r[|r| - 1] == PostCommandFailureLogged <==> postFails
  {
    [PostCommand(error, inhibited, inv.isContinue, inv.args)]
      + (if postFails then [PostCommandFailureLogged] else [])
  }

  /** No post-hook call among `events`. */
  predicate NoPostHook(events: seq<Event>) {
    forall e :: e in events ==> !e.PostCommand?
  }

  /** The number of post-hook calls. */
  function PostHookCalls(events: seq<Event>): nat {
    if |events| == 0 then 0
    else (if events[0].PostCommand? then 1 else 0) + PostHookCalls(events[1..])
  }

  /** The post hook is the last thing that happens, save for logging its own failure. */
  predicate PostHookLast(events: seq<Event>) {
    || (|events| >= 1 && events[|events| - 1].PostCommand?)
    || (|events| >= 2 && events[|events| - 2].PostCommand?
        && events[|events| - 1] == PostCommandFailureLogged)
  }

  lemma {:induction false} PostHookCallsAppend(a: seq<Event>, b: seq<Event>)
    ensures PostHookCalls(a + b) == PostHookCalls(a) + PostHookCalls(b)
    decreases |a|
  {
    if |a| == 0 {
      assert a + b == b;
    } else {
      assert (a + b)[0] == a[0];
      assert (a + b)[1..] == a[1..] + b;
      PostHookCallsAppend(a[1..], b);
    }
  }

  lemma {:induction false} NoPostHookCalls(events: seq<Event>)
    requires NoPostHook(events)
    ensures PostHookCalls(events) == 0
    decreases |events|
  {
    if |events| > 0 {
      assert events[0] in events;
      NoPostHookCalls(events[1..]);
    }
  }

  /** Events with no post-hook call, followed by the `finally` block, hold
      exactly one post-hook call, at the end, carrying the given arguments. */
  lemma PostHookAppended(before: seq<Event>, error: Option<Thrown>, inhibited: bool, inv: Invocation, postFails: bool)
    requires NoPostHook(before)
    ensures var events := before + PostHook(error, inhibited, inv, postFails);
            && PostHookCalls(events) == 1 && PostHookLast(events)
            && (forall e :: e in events && e.PostCommand? ==>
                  e == PostCommand(error, inhibited, inv.isContinue, inv.args))
            && (events[|events| - 1] == PostCommandFailureLogged <==> postFails)
  {
    var post := PostHook(error, inhibited, inv, postFails);
    NoPostHookCalls(before);
    PostHookCallsAppend(before, post);
    assert PostHookCalls(post) == 1 by {
      if postFails {
        assert post[1..] == [PostCommandFailureLogged];
        assert PostHookCalls([PostCommandFailureLogged]) == 0 by {
          assert [PostCommandFailureLogged][1..] == [];
        }
      } else {
        assert post[1..] == [];
      }
    }
  }

  /** `runCommand`. When no command of either kind has the name, the error
      escapes before any hook. Otherwise the run never throws, and the post
      hook is called exactly once, last, with `inhibited` true exactly when
      `preCommand` gave a reason; a failure of the post hook is logged. The
      lemmas below give the trace of each path. */
  function RunCommand(inv: Invocation, commands: Commands, b: Behaviour, postFails: bool): (r: RunResult)
    // resolution
    ensures r.Propagated? <==> !commands.mahojiExists && commands.legacy.None?
    ensures r.Propagated? ==> r.error == ThrownError(NoCommandFoundMessage)
    // the guaranteed post hook
    ensures r.Ran? ==> PostHookCalls(r.events) == 1 && PostHookLast(r.events)
    ensures r.Ran? ==> forall e :: e in r.events && e.PostCommand? ==>
              && (e.inhibited <==> b.preCommand.Inhibit?)
              && e.isContinue == inv.isContinue && e.args == inv.args
    ensures r.Ran? ==> (r.events[|r.events| - 1] == PostCommandFailureLogged <==> postFails)
  {
    var resolved := Resolve(commands);
    if resolved.Unresolved? then Propagated(ThrownError(NoCommandFoundMessage))
    else
      var (caught, error) := CatchBlock(TryBlock(inv, resolved, b), b);
      PostHookAppended(caught.events, error, caught.inhibited, inv, postFails);
      Ran(caught.events + PostHook(error, caught.inhibited, inv, postFails),
          if caught.exit.ReturnWith? then caught.exit.value else Null)
  }

  /** A mahoji command shadows a legacy command of the same name. */
  lemma MahojiWins(inv: Invocation, commands: Commands, b: Behaviour, postFails: bool)
    requires commands.mahojiExists
    ensures RunCommand(inv, commands, b, postFails) == RunCommand(inv, Commands(true, None), b, postFails)
  {
  }

  /** An inhibited command never runs: the outcome does not depend on how
      either command body would have behaved. */
  lemma InhibitedNeverExecutes(inv: Invocation, commands: Commands, b: Behaviour, postFails: bool,
                               m: Execution, l: Execution)
    requires b.preCommand.Inhibit?
    ensures RunCommand(inv, commands, b, postFails)
            == RunCommand(inv, commands, b.(mahojiRun := m, legacyRun := l), postFails)
  {
  }

  /** A failing post hook is logged and masks nothing: the run is the same as
      with a post hook that succeeds, plus the log entry. */
  lemma PostHookFailureIsolated(inv: Invocation, commands: Commands, b: Behaviour)
    requires commands.mahojiExists || commands.legacy.Some?
    ensures RunCommand(inv, commands, b, true).Ran?
    ensures RunCommand(inv, commands, b, true).events
              == RunCommand(inv, commands, b, false).events + [PostCommandFailureLogged]
    ensures RunCommand(inv, commands, b, true).returned == RunCommand(inv, commands, b, false).returned
  {
  }

  /** Resolved but inhibited: a silent reason sends nothing, any other reason
      is sent as is; the post hook sees `inhibited` and no error. */
  lemma InhibitedTrace(inv: Invocation, commands: Commands, b: Behaviour, postFails: bool)
    requires commands.mahojiExists || commands.legacy.Some?
    requires b.preCommand.Inhibit?
    ensures var i := b.preCommand.inhibition;
            RunCommand(inv, commands, b, postFails) ==
              if i.silent then Ran(PostHook(None, true, inv, postFails), Undefined)
              else Ran([Sent(i.reason)] + PostHook(None, true, inv, postFails), SentMessage(i.reason))
  {
  }

  /** A throw from `preCommand` is handled like a throw from a command body. */
  lemma PreCommandThrowTrace(inv: Invocation, commands: Commands, b: Behaviour, postFails: bool)
    requires commands.mahojiExists || commands.legacy.Some?
    requires b.preCommand.PreThrew?
    ensures var t := b.preCommand.thrown;
            RunCommand(inv, commands, b, postFails) ==
              if t.ThrownString? && b.channelSendable
              then Ran([Sent(t.text)] + PostHook(None, false, inv, postFails), SentMessage(t.text))
              else Ran(PostHook(Some(t), false, inv, postFails), Null)
  {
  }

  /** Array arguments to a mahoji command, object arguments to a legacy
      command, and a disabled legacy command are errors handed to the post
      hook; nothing is sent and no command body runs. */
  lemma MalformedInvocationTrace(inv: Invocation, commands: Commands, b: Behaviour, postFails: bool)
    requires b.preCommand.Pass?
    ensures commands.mahojiExists && inv.args.ArrayArgs? ==>
              RunCommand(inv, commands, b, postFails) ==
                Ran(PostHook(Some(ThrownError(ArrayArgsMessage(inv.commandName))), false, inv, postFails), Null)
    ensures !commands.mahojiExists && commands.legacy.Some? && inv.args.ObjectArgs? ==>
              RunCommand(inv, commands, b, postFails) ==
                Ran(PostHook(Some(ThrownError(ObjectArgsMessage)), false, inv, postFails), Null)
    ensures !commands.mahojiExists && commands.legacy.Some? && inv.args.ArrayArgs?
            && !commands.legacy.value.enabled ==>
              RunCommand(inv, commands, b, postFails) ==
                Ran(PostHook(Some(ThrownError(DisabledMessage(commands.legacy.value.name))), false, inv, postFails), Null)
  {
  }

  /** A mahoji command's reply goes to a sendable channel; a thrown string
      goes there too and leaves the post hook's error empty; any other throw
      (or a string with no channel to send it to) becomes the post hook's
      error and goes no further. */
  lemma MahojiTrace(inv: Invocation, commands: Commands, b: Behaviour, postFails: bool)
    requires b.preCommand.Pass? && commands.mahojiExists && inv.args.ObjectArgs?
    ensures b.mahojiRun.Returned? ==>
              RunCommand(inv, commands, b, postFails) ==
                Ran((if b.channelSendable then [Sent(b.mahojiRun.reply)] else [])
                    + PostHook(None, false, inv, postFails), Null)
    ensures b.mahojiRun.Threw? && b.mahojiRun.thrown.ThrownString? && b.channelSendable ==>
              RunCommand(inv, commands, b, postFails) ==
                Ran([Sent(b.mahojiRun.thrown.text)] + PostHook(None, false, inv, postFails),
                    SentMessage(b.mahojiRun.thrown.text))
    ensures b.mahojiRun.Threw? && (b.mahojiRun.thrown.ThrownError? || !b.channelSendable) ==>
              RunCommand(inv, commands, b, postFails) ==
                Ran(PostHook(Some(b.mahojiRun.thrown), false, inv, postFails), Null)
  {
  }

  /** An enabled legacy command's result is returned; anything it throws is
      emitted as a command error and never reaches the post hook. */
  lemma LegacyTrace(inv: Invocation, commands: Commands, b: Behaviour, postFails: bool)
    requires b.preCommand.Pass? && !commands.mahojiExists && commands.legacy.Some?
    requires inv.args.ArrayArgs? && commands.legacy.value.enabled
    ensures b.legacyRun.Returned? ==>
              RunCommand(inv, commands, b, postFails)
              == Ran(PostHook(None, false, inv, postFails), CommandResult(b.legacyRun.reply))
    ensures b.legacyRun.Threw? ==>
              RunCommand(inv, commands, b, postFails) ==
                Ran([CommandErrorEmitted(b.legacyRun.thrown)] + PostHook(None, false, inv, postFails), Null)
  {
  }
}

=== FILE: lifecycle.dfy ===
/** The activity lifecycle over three pieces of process state: the store,
    the cache, and the busy set (`oneCommandAtATimeCache`) that marks users
    whose activity is being completed. Every operation is a transition from
    one `State` to the next. */
module Lifecycle {
  import opened Wrappers
  import opened Activities
  import opened ActivityCache
  import opened ActivityStore

  datatype State = State(store: Store, cache: Cache, busy: set<UserId>)

  /** The cache mirrors the store: its keys are exactly the participants of
      incomplete rows, and each key holds the flattened form of an incomplete
      row that names it. */
  ghost predicate Consistent(store: Store, cache: Cache) {
    && cache.Keys == IncompleteParticipants(store)
    && forall u :: u in cache ==>
         exists a :: a in store && !a.completed && u in Participants(a) && cache[u] == Flatten(a)
  }

  /*** syncActivityCache ***/

  /** `syncActivityCache`: clear the cache, then `activitySync` every
      incomplete row. Nothing held before survives unless the store still
      names it; store and busy set are untouched. */
  function SyncActivityCache(s: State): (r: State)
    ensures r.store == s.store && r.busy == s.busy
    ensures Consistent(r.store, r.cache)
    ensures AtMostOneIncomplete(s.store) ==>
              forall a, u :: a in s.store && !a.completed && u in Participants(a) ==>
                u in r.cache && r.cache[u] == Flatten(a)
  {
    var tasks := Incomplete(s.store);
    var cache := SyncEach(map[], tasks);
    SyncEstablishesConsistent(s.store, cache);
    s.(cache := cache)
  }

  /** Participants of the incomplete rows, gathered through the query. */
  lemma IncompleteAllParticipants(store: Store)
    ensures AllParticipants(Incomplete(store)) == IncompleteParticipants(store)
  {
  }

  /** A participant of some task has a last task naming it. */
  lemma {:induction false} LastNamingExists(tasks: seq<StoredActivity>, u: UserId)
    requires u in AllParticipants(tasks)
    ensures exists i :: 0 <= i < |tasks| && u in Participants(tasks[i]) && LastNaming(tasks, i, u)
    decreases |tasks|
  {
    var n := |tasks| - 1;
    if u in Participants(tasks[n]) {
      assert LastNaming(tasks, n, u);
    } else {
      var prefix := tasks[..n];
      assert tasks == prefix + [tasks[n]];
      AllParticipantsSnoc(prefix, tasks[n]);
      LastNamingExists(prefix, u);
      var i :| 0 <= i < |prefix| && u in Participants(prefix[i]) && LastNaming(prefix, i, u);
      assert tasks[i] == prefix[i];
      forall j | i < j < |tasks| ensures u !in Participants(tasks[j]) {
        if j < n {
          assert tasks[j] == prefix[j];
        }
      }
    }
  }

  /** Syncing the incomplete rows into an empty cache yields a consistent
      cache, and under the one-activity-per-user invariant every participant
      maps to its own row. */
  lemma SyncEstablishesConsistent(store: Store, cache: Cache)
    requires SyncedFrom(map[], Incomplete(store), cache)
    ensures Consistent(store, cache)
    ensures AtMostOneIncomplete(store) ==>
              forall a, u :: a in store && !a.completed && u in Participants(a) ==>
                u in cache && cache[u] == Flatten(a)
  {
    var tasks := Incomplete(store);
    IncompleteAllParticipants(store);
    forall u | u in cache
      ensures exists a :: a in store && !a.completed && u in Participants(a) && cache[u] == Flatten(a)
    {
      LastNamingExists(tasks, u);
      var i :| 0 <= i < |tasks| && u in Participants(tasks[i]) && LastNaming(tasks, i, u);
      assert tasks[i] in tasks;
    }
    if AtMostOneIncomplete(store) {
      forall a, u | a in store && !a.completed && u in Participants(a)
        ensures u in cache && cache[u] == Flatten(a)
      {
        assert u in IncompleteParticipants(store);
        var b :| b in store && !b.completed && u in Participants(b) && cache[u] == Flatten(b);
      }
    }
  }

  /** After the rebuild, looking a user up gives the flattened row the user
      is on (when each user is on at most one incomplete row), and nothing
      for a user on no incomplete row. */
  lemma GetActivityAfterSync(s: State, u: UserId)
    ensures AtMostOneIncomplete(s.store) ==>
              forall a :: a in s.store && !a.completed && u in Participants(a) ==>
                GetActivityOfUser(SyncActivityCache(s).cache, u) == Some(Flatten(a))
    ensures u !in IncompleteParticipants(s.store) ==>
              GetActivityOfUser(SyncActivityCache(s).cache, u) == None
  {
  }

  /** Re-running the rebuild changes nothing: it is safe as a repair step. */
  lemma SyncIdempotent(s: State)
    ensures SyncActivityCache(SyncActivityCache(s)) == SyncActivityCache(s)
  {
  }

  /** `activitySync` of a new incomplete row whose participants are all free
      keeps the cache consistent with the store that now holds the row, and
      keeps every user on at most one incomplete row. */
  lemma ActivitySyncPreservesConsistent(store: Store, cache: Cache, a: StoredActivity)
    requires Consistent(store, cache)
    requires !a.completed
    requires Elems(Participants(a)) !! IncompleteParticipants(store)
    ensures Consistent(store + [a], ActivitySync(cache, a))
    ensures AtMostOneIncomplete(store) ==> AtMostOneIncomplete(store + [a])
  {
    var store', cache' := store + [a], ActivitySync(cache, a);
    assert forall b :: b in store' <==> b in store || b == a;
    assert IncompleteParticipants(store') == IncompleteParticipants(store) + Elems(Participants(a)) by {
      forall u | u in IncompleteParticipants(store')
        ensures u in IncompleteParticipants(store) + Elems(Participants(a))
      {
        var b :| b in store' && !b.completed && u in Participants(b);
      }
    }
    forall u | u in cache'
      ensures exists b :: b in store' && !b.completed && u in Participants(b) && cache'[u] == Flatten(b)
    {
      if u !in Participants(a) {
        var b :| b in store && !b.completed && u in Participants(b) && cache[u] == Flatten(b);
        assert b in store';
      } else {
        assert a in store';
      }
    }
    if AtMostOneIncomplete(store) {
      forall b, c, u | b in store' && c in store' && !b.completed && !c.completed
          && u in Participants(b) && u in Participants(c)
        ensures b == c
      {
        if b in store && b != a {
          assert u in IncompleteParticipants(store);
        }
        if c in store && c != a {
          assert u in IncompleteParticipants(store);
        }
      }
    }
  }

  /*** cancelTask ***/

  /** `cancelTask(u)`: every incomplete row whose primary participant is `u`
      is deleted and every other row kept; only `u`'s own cache key is
      dropped; the busy set is untouched. With no such row and no key for
      `u`, nothing changes. */
  function CancelTask(s: State, u: UserId): (r: State)
    ensures forall a :: a in r.store <==> a in s.store && !CancelledBy(a, u)
    ensures r.cache.Keys == s.cache.Keys - {u}
    ensures forall k :: k in r.cache ==> r.cache[k] == s.cache[k]
    ensures r.busy == s.busy
    ensures (forall a :: a in s.store ==> !CancelledBy(a, u)) && u !in s.cache ==> r == s
  {
    State(DeleteIncompleteOf(s.store, u), s.cache - {u}, s.busy)
  }

  /** No incomplete row names `u` except solo rows of `u`'s own. */
  ghost predicate OnlySoloRows(store: Store, u: UserId) {
    forall a :: a in store && !a.completed && (u in Participants(a) || a.userId == u)
      ==> a.userId == u && Elems(Participants(a)) == {u}
  }

  /** A user whose only incomplete rows are solo rows of their own can cancel
      without breaking consistency. */
  lemma CancelSoloPreservesConsistent(s: State, u: UserId)
    requires Consistent(s.store, s.cache)
    requires OnlySoloRows(s.store, u)
    ensures Consistent(CancelTask(s, u).store, CancelTask(s, u).cache)
  {
  }

  /** Cancelling a group activity from its leader deletes the row but leaves
      every other member cached, now pointing at a row that no longer
      exists: the cache is no longer consistent with the store. */
  lemma CancelStrandsGroupMembers(s: State, u: UserId, a: StoredActivity, v: UserId)
    requires Consistent(s.store, s.cache) && AtMostOneIncomplete(s.store)
    requires a in s.store && !a.completed && a.userId == u
    requires v in Participants(a) && v != u
    ensures a !in CancelTask(s, u).store
    ensures v in CancelTask(s, u).cache && CancelTask(s, u).cache[v] == s.cache[v]
    ensures v !in IncompleteParticipants(CancelTask(s, u).store)
    ensures !Consistent(CancelTask(s, u).store, CancelTask(s, u).cache)
  {
  }

  /*** completeActivity ***/

  /** What one run of a task handler does: the store it leaves behind and
      the error it threw, if any. */
  datatype HandlerEffect = HandlerEffect(store: Store, threw: Option<string>)

  /** A task handler sees the flattened activity and the state at the moment
      it runs (busy set included). */
  type Handler = (FlatActivity, State) -> HandlerEffect

  /** `globalClient.tasks` keyed through `taskNameFromType`. */
  datatype TaskRegistry = TaskRegistry(nameOf: string -> string, tasks: map<string, Handler>)

  /** The outcome of `completeActivity`: the state after, the state the
      handler ran in (if it ran), the handler error that was logged, and the
      error thrown to the caller. */
  datatype Completion = Completion(
    state: State,
    handlerSaw: Option<State>,
    loggedError: Option<string>,
    thrown: Option<string>)

  const AlreadyCompletedMessage: string := "Tried to complete an already completed task."
  const MissingTaskMessage: string := "Missing task"

  /** Whether `completeActivity` gets past its two checks. */
  function Runnable(registry: TaskRegistry, rec: StoredActivity): (ok: bool)
    ensures rec.completed ==> !ok
    ensures registry.nameOf(rec.activityType) !in registry.tasks ==> !ok
  {
    !rec.completed && registry.nameOf(rec.activityType) in registry.tasks
  }

  /** `completeActivity`: a completed record or an unregistered task throws
      before anything changes and the handler does not run. Otherwise the
      handler runs with the primary user added to the busy set (whether or
      not it was there already); afterwards, whatever the handler did, that
      user is out of the busy set, the cache entry the user holds is evicted
      for all its participants, and a handler error is logged, not thrown.
      The record's `completed` flag is left to the handler. */
  function CompleteActivity(s: State, registry: TaskRegistry, rec: StoredActivity): (r: Completion)
    ensures rec.completed ==> r == Completion(s, None, None, Some(AlreadyCompletedMessage))
    ensures !rec.completed && !Runnable(registry, rec) ==>
              r == Completion(s, None, None, Some(MissingTaskMessage))
    ensures r.thrown.None? <==> Runnable(registry, rec)
    ensures r.thrown.None? ==> r.handlerSaw == Some(s.(busy := s.busy + {rec.userId}))
    ensures r.thrown.None? ==> r.state.busy == s.busy - {rec.userId}
    ensures r.thrown.None? ==> r.state.cache == CacheDelete(s.cache, rec.userId)
    ensures r.thrown.None? ==>
              var effect := registry.tasks[registry.nameOf(rec.activityType)](Flatten(rec), r.handlerSaw.value);
              r.state.store == effect.store && r.loggedError == effect.threw
  {
    var activity := Flatten(rec);
    if rec.completed then Completion(s, None, None, Some(AlreadyCompletedMessage))
    else
      var taskName := registry.nameOf(activity.activityType);
      if taskName !in registry.tasks then Completion(s, None, None, Some(MissingTaskMessage))
      else
        var running := s.(busy := s.busy + {activity.userId});
        var effect := registry.tasks[taskName](activity, running);
        var after := State(effect.store, CacheDelete(running.cache, activity.userId), running.busy - {activity.userId});
        Completion(after, Some(running), effect.threw, None)
  }

  /** When the record is incomplete and in the store, its task is registered,
      every user is on at most one incomplete row and the cache is consistent
      with the store, completing a row whose primary user is one of its
      participants evicts every participant and frees the primary user,
      whether the handler threw or not. */
  lemma CompleteEvictsAllParticipants(s: State, registry: TaskRegistry, rec: StoredActivity)
    requires Consistent(s.store, s.cache) && AtMostOneIncomplete(s.store)
    requires rec in s.store && rec.userId in Participants(rec)
    requires Runnable(registry, rec)
    ensures CompleteActivity(s, registry, rec).thrown.None?
    ensures forall v :: v in Participants(rec) ==> v !in CompleteActivity(s, registry, rec).state.cache
    ensures rec.userId !in CompleteActivity(s, registry, rec).state.busy
  {
  }

  /** What the eviction actually needs: the primary user's cache entry is
      this record's flattened form. The store need not agree, so this covers a
      caller that has already marked the row completed and hands over the
      stale incomplete record. */
  lemma CompleteEvictsThroughOwnEntry(s: State, registry: TaskRegistry, rec: StoredActivity)
    requires Runnable(registry, rec)
    requires rec.userId in s.cache && s.cache[rec.userId] == Flatten(rec)
    ensures forall v :: v in Participants(rec) ==> v !in CompleteActivity(s, registry, rec).state.cache
    ensures rec.userId !in CompleteActivity(s, registry, rec).state.busy
  {
  }

  /** The busy set is not checked before it is set: a user already marked
      busy still gets the handler run, and comes out unmarked. */
  lemma CompleteIgnoresBusyMark(s: State, registry: TaskRegistry, rec: StoredActivity)
    requires rec.userId in s.busy && Runnable(registry, rec)
    ensures CompleteActivity(s, registry, rec).handlerSaw.Some?
    ensures rec.userId !in CompleteActivity(s, registry, rec).state.busy
  {
  }

  /** Completion re-checks only the record it is given, so handing it the
      same incomplete record twice runs the handler twice. */
  lemma CompleteTwiceRunsHandlerTwice(s: State, registry: TaskRegistry, rec: StoredActivity)
    requires Runnable(registry, rec)
    ensures CompleteActivity(s, registry, rec).handlerSaw.Some?
    ensures CompleteActivity(CompleteActivity(s, registry, rec).state, registry, rec).handlerSaw.Some?
  {
  }
}

=== FILE: wrappers.dfy ===
/** The optional value used wherever the TypeScript code returns `null` / `undefined`
    or leaves a field out. */
module Wrappers {

  datatype Option<+T> = None | Some(value: T)
}
